=== FILE: README.md ===
# Manicure booking bot: a Dafny model of its booking logic

The bot (`manicurebotnew.py`) lets Telegram users book one of four daily
times (11:00, 13:00, 15:00, 17:00), Monday to Saturday, in one of two weeks.
Bookings live in two SQLite tables:
- `booked_slots` is a list of `(full_key, time_slot)` rows. New rows are only added at the end, and `db_delete_booking` removes rows. `full_key` is `{week_prefix}_{day}`, for example `curr_Пн`.
- `user_records` maps a user id to `(name, day_label, full_key, time_slot)`.

This project models the part of the bot that decides who gets which slot:
- the four database helpers;
- the week-date resolver;
- the callback strings the buttons carry and how the handlers split them on `_`;
- which times the time menu offers;
- the registration, day, time and cancel handlers.

Everything is written as pure functions over immutable data. A handler takes the
`World` before an update (the database plus every user's conversation state) and
returns its reply and the `World` after it.

Modules, leaves first:
- `Options` (`options.dfy`): the optional value of a lookup.
- `Text` (`text.dfy`): Python's `str.split` on one separator character, with joining as its inverse.
- `Ledger` (`ledger.dfy`): the two tables and `db_add_booking`, `db_get_taken_slots`, `db_get_user_record`, `db_delete_booking`.
- `Callbacks` (`callbacks.dfy`): the `day_…`, `settime_…` and `week_…` callback strings, their parsing, and the taken/free logic of `time_menu_kb`.
- `Calendar` (`calendar.dfy`): `get_week_dates`. Days are proleptic Gregorian ordinals, with weekday `(ordinal + 6) % 7` as in Python. The date text is a parameter `fmt`.
- `Handlers` (`handlers.dfy`): `start_reg`, `get_name`, `select_day`, `finalize_booking`, `delete_booking`. Also a sequential `Run` of updates and the proof that it never puts one `(key, time)` pair on two slot rows.
- `BookingProperties` (`properties.dfy`): properties of whole conversations, namely cancel twice, cancel then rebook, first come first served, the orphaned slot left by re-booking, and the Wednesday week.

Where the code does something a reader might not expect, the model follows the code:
- `finalize_booking` checks only the slot, not whether the user already has a booking. The only per-user guard is in `start_reg`, and it runs before the name is asked.
- `db_add_booking` is an upsert on the user row (INSERT OR REPLACE). It always appends a slot row and never deduplicates. So a user who books twice from a stale menu keeps one record but leaves two slot rows (`RebookingOrphansFirstSlot`).
- `booked_slots` is a list with possible repeats, not a set. `db_delete_booking` removes every row equal to the record's `(full_key, time_slot)`.
- The first bookable week is next week: this week's Monday plus 7 days. The prefix `next` adds another 7 days. Any prefix other than `next` behaves like `curr`.
- The database helpers return no errors: a SQLite failure raises, and I/O is not modelled.
- A callback with too few `_` separators, or a day callback that matches no button of its week, raises in the handler. The model's reply for this is `Crashed`, and the world does not change.

## Model

| member | source | states |
|---|---|---|
| Text.Split | manicurebotnew.py:200 | `data.split("_")` has at least one piece and no piece contains the separator |
| Text.SplitCount | manicurebotnew.py:200-201 | there is one more piece than separators, so `parts[3]` exists exactly when the data has at least three `_` |
| Text.JoinSplit | manicurebotnew.py:200 | joining the pieces with `_` gives back the string |
| Text.SplitJoin | manicurebotnew.py:200-202 | splitting a `_`-join of separator-free pieces recovers exactly those pieces |
| Ledger.TakenSlots | manicurebotnew.py:55-61 | the times returned for a key are exactly the times of the slot rows with that key, each as often as such a row occurs |
| Ledger.TakenSlotsSingleRow | manicurebotnew.py:55-61 | with a single slot row, its time is the one time taken under its key |
| Ledger.TakenSlotsUnknownKey | manicurebotnew.py:55-61 | a key that no slot row carries has no taken times |
| Ledger.GetUserRecord | manicurebotnew.py:63-69 | the lookup finds a record exactly when the user has a row, and it is that row |
| Ledger.AddBooking | manicurebotnew.py:47-53 | afterwards the user's record is the new one, whatever it was before; every other user's record is unchanged; exactly one `(key, time)` row is appended at the end of the slot table, even if it duplicates one; the time is taken under the key; every other key's times are unchanged |
| Ledger.RemoveRow | manicurebotnew.py:76 | the DELETE keeps every slot row that differs from the deleted pair, as many times as before, and none equal to it |
| Ledger.DeleteBooking | manicurebotnew.py:71-81 | with no record it returns None and both tables are unchanged; with record r it returns r, removes the user's row and every slot row equal to `(r.full_key, r.time_slot)`, and keeps all other rows and records, so that time is no longer taken under that key; the user has no record afterwards |
| Ledger.AddFreeSlotKeepsSlotsDistinct | manicurebotnew.py:204-210 | adding a booking for a time not yet taken under its key keeps every `(key, time)` pair on at most one slot row |
| Ledger.NoDuplicateSlotsByIndex | manicurebotnew.py:42 | with no pair on two slot rows, no two positions of the slot table hold equal rows |
| Ledger.NoDuplicateSlotsFromIndex | manicurebotnew.py:42 | conversely, a slot table whose positions hold pairwise different rows has no pair on two slot rows; with the lemma above, the two forms are equivalent, so `RunKeepsSlotsDistinct` applies to any such existing table |
| Callbacks.KeySplit | manicurebotnew.py:196-202 | the slot key `{prefix}_{day}` built from separator-free parts has one `_` and splits back into the prefix and the day |
| Callbacks.KeyPrefix | manicurebotnew.py:144 | `key.split("_")[0]` contains no separator; with `KeyPrefixOfKey` it is the key's prefix |
| Callbacks.DayCallback | manicurebotnew.py:103 | a day button's data `day_{prefix}_{name}` starts with the `day_` that routes it to `select_day` (line 188); `DayRoundTrip` parses it back |
| Callbacks.SetTimeCallback | manicurebotnew.py:142 | a time button's data `settime_{key}_{t}` starts with the `settime_` that routes it to `finalize_booking` (line 198); `SetTimeRoundTrip` parses it back |
| Callbacks.WeekCallback | manicurebotnew.py:145 | the back button's data `week_{prefix}` starts with the `week_` that routes it to the week switcher (line 183) |
| Callbacks.ParseDay | manicurebotnew.py:190-191 | `select_day`'s parse fails (IndexError) exactly when the data has fewer than two `_`; otherwise the prefix and day are separator-free, and with exactly two `_` the data is `{head}_{prefix}_{day}` |
| Callbacks.ParseSetTime | manicurebotnew.py:200-201 | `finalize_booking`'s parse fails exactly when the data has fewer than three `_`; otherwise the prefix, day and time are separator-free, and with exactly three `_` the data is `{head}_{prefix}_{day}_{time}` |
| Callbacks.ParseDayTakesLeadingParts | manicurebotnew.py:190-191 | with more than two `_`, `select_day` still takes the second and third pieces: `{head}_{prefix}_{day}_{rest}` of separator-free head, prefix and day parses to that prefix and day, whatever `rest` is |
| Callbacks.ParseSetTimeTakesLeadingParts | manicurebotnew.py:200-201 | with more than three `_`, `finalize_booking` still takes the second to fourth pieces: `{head}_{prefix}_{day}_{t}_{rest}` of separator-free parts parses to that prefix, day and time, whatever `rest` is |
| Callbacks.KeyPrefixOfKey | manicurebotnew.py:144 | `key.split("_")[0]` gives back the prefix of a key built from a separator-free prefix |
| Callbacks.DayRoundTrip | manicurebotnew.py:190-191 | splitting `day_{prefix}_{name}` gives `["day", prefix, name]`, so the handler gets back the prefix and the name |
| Callbacks.SetTimeRoundTrip | manicurebotnew.py:200-202 | parsing `settime_{prefix}_{day}_{t}` gives back prefix, day and time for separator-free parts |
| Callbacks.TimeMenu | manicurebotnew.py:134-146 | one button per bookable time, in order; a button is locked exactly when its time is taken; a free button carries `settime_{key}_{t}`; a locked one carries `already_booked`; the back button is `week_{prefix of key}` |
| Callbacks.TimeMenuOffersFreeTimes | manicurebotnew.py:136-142 | a time is offered for booking exactly when it is one of the four times and not taken |
| Callbacks.TimeMenuCallbacksBook | manicurebotnew.py:141-145 | every offered callback parses back, in `finalize_booking`, to the menu's prefix, day and that time; the back button leads to the prefix's week |
| Calendar.Weekday | manicurebotnew.py:87 | `date.weekday()` is in 0..6 and counts the days since the last Monday, day 1 being a Monday |
| Calendar.Label | manicurebotnew.py:102 | a day label is the calendar sign and a space, then the day name, then `, `, then the date text at the end |
| Calendar.MondayOf | manicurebotnew.py:87 | this week's Monday is a Monday no more than six days before today |
| Calendar.BookingStart | manicurebotnew.py:86-94 | the first listed day is a Monday: the first one after today for `curr` (or any prefix but `next`), the one a week later for `next` |
| Calendar.GetWeekDates | manicurebotnew.py:96-105 | six entries Пн to Сб; entry i is labelled with its day name and the date `start + i`, and sends `day_{prefix}_{name}` |
| Calendar.WeekDatesInTargetWeek | manicurebotnew.py:85-99 | entry i falls on weekday i, inside the week after today's for `curr` and the week after that for `next` |
| Calendar.WeekCallbacksDistinct | manicurebotnew.py:193 | the six day callbacks of a week differ, so the `next(...)` lookup has at most one candidate |
| Handlers.WithSession | manicurebotnew.py:194 | `state.update_data` for one user: the database and every other user's state stay as they were |
| Handlers.Cleared | manicurebotnew.py:219 | `state.clear()` for one user: that user's state is blank, and the database and every other user's state stay as they were |
| Handlers.StartReg | manicurebotnew.py:161-170 | refuses, with no change at all, exactly when the user has a record; otherwise enters the name-waiting state and changes nothing else |
| Handlers.GetName | manicurebotnew.py:172-181 | only a user waiting for a name is handled; the text becomes the name, the waiting state ends, the current week's days are shown, and the database is untouched |
| Handlers.FirstMatch | manicurebotnew.py:193 | the position found is the first entry whose callback equals the data, or past the end when none does |
| Handlers.SelectDay | manicurebotnew.py:188-196 | never touches the database; either raises with nothing changed, or records a prefix and the shown label and keeps the name and waiting state |
| Handlers.SelectDayAccepts | manicurebotnew.py:188-196 | a day button of any separator-free prefix shows the label of its day in that prefix's week and the time menu of `{prefix}_{day}` over the key's taken times, and records the prefix |
| Handlers.SelectDayOnlyAcceptsDayButtons | manicurebotnew.py:188-196 | conversely, accepted data is always `day_{prefix}_{name}` for the recorded separator-free prefix and one of the six names |
| Handlers.BookTime | manicurebotnew.py:202-219 | refuses with no change exactly when the time is already taken under `{prefix}_{day}`; otherwise the slot was free, the database gets `db_add_booking` with the session's name and label, and the user's state is cleared; it keeps slot rows distinct |
| Handlers.FinalizeBooking | manicurebotnew.py:198-202 | raises with nothing changed exactly when the data has fewer than three `_`; otherwise books the parsed time; it keeps slot rows distinct |
| Handlers.CancelBooking | manicurebotnew.py:221-229 | answers with the removed record exactly when the user had one, otherwise changes nothing; sessions are untouched; the user has no record afterwards; it keeps slot rows distinct |
| Handlers.Step | manicurebotnew.py:161-229 | every handled update, from any world whatever its conversation state, keeps each `(key, time)` pair on at most one slot row; an update other than a time press adds no slot row |
| Handlers.Run | manicurebotnew.py:161-229 | handling updates one after another; without a time press among them, no slot row is added, since only `finalize_booking` inserts |
| Handlers.RunKeepsSlotsDistinct | manicurebotnew.py:204-210 | updates handled one after another never put one `(key, time)` pair on two slot rows |
| Handlers.FreshRunKeepsSlotsDistinct | manicurebotnew.py:39-45 | from a fresh database, no sequential run produces a duplicate slot row |
| BookingProperties.CancelTwice | manicurebotnew.py:71-81 | a second cancel right after the first finds nothing to cancel and changes nothing |
| BookingProperties.CancelThenRebook | manicurebotnew.py:71-80 | after a user cancels, anyone can book the freed time through its button |
| BookingProperties.BookedSlotRefusesNext | manicurebotnew.py:204-206 | after a successful booking, the same button pressed by anyone is refused with no change, and the booker cannot start a new registration |
| BookingProperties.BookedTimeLocked | manicurebotnew.py:137-142 | pressing the button of a free time books it, and afterwards the time menu of its key shows it locked |
| BookingProperties.FreshFirstBooking | manicurebotnew.py:204-210 | on a fresh database, pressing 11:00 on Monday of the bookable week books it, and 11:00 becomes the only taken time of that day |
| BookingProperties.FirstComeFirstServed | manicurebotnew.py:204-210 | on a fresh database, the first user to press 11:00 on Monday books it, a second user's press is refused, and after the first user cancels the second user's press succeeds |
| BookingProperties.OnlyFirstTimeLocked | manicurebotnew.py:136-142 | with only 11:00 taken, the menu locks 11:00 and offers 13:00, 15:00 and 17:00 with their booking callbacks |
| BookingProperties.RebookingOrphansFirstSlot | manicurebotnew.py:50-51 | a user who books two different free slots in a row gets both bookings but keeps only the second record; cancelling frees only the second slot, and the first stays taken with no record pointing at it |
| BookingProperties.WednesdayStarts | manicurebotnew.py:86-94 | on a Wednesday the bookable week starts five days later and the next week twelve days later |
| BookingProperties.WednesdayWeek | manicurebotnew.py:86-99 | on a Wednesday the current week's list starts five days later, the next week's twelve days later, and entry i falls on weekday i |

## Left out

- Message sending, editing and deleting, keyboard layout (`InlineKeyboardBuilder`, `adjust`, `row`) and HTML texts are Telegram library calls. They are replaced by the `Reply` values.
- The `msg_to_delete` entry of the conversation data only serves message deletion, which is not modelled.
- The logging middleware, `main` and polling, environment and token setup, and the SQLite connection and `init_db` are process plumbing. A fresh database is `Ledger.Empty`.
- Admin notifications (`bot_orders.send_message` with a bare `except`) and the `/find` command are network I/O.
- `start_cmd`, `switch_week`, `check_booking`, `back_main` and `already_booked_info` only render messages or read a record. `check_booking` is `GetUserRecord`.
- Routing updates to handlers by aiogram filters is the `Event` constructors, and nothing ties an `Event`'s data to the prefix its filter matches. For example, `TimePressed` with data `day_a_b_c` books key `a_b` in the model, while the bot would send that data to `select_day`, which raises. The no-duplicate invariant does not rest on `Run` matching the bot's runs: `Step` keeps it from every `World`, whatever its conversation state, and each database change the bot makes is the database change of some `Step`. A command message sent while the user waits for a name is not modelled.
- `datetime.now()` is the parameter `today` (a day ordinal). `strftime("%d.%m")` is the parameter `fmt`.
- The async check-then-insert race in `finalize_booking` is concurrency. Only sequential handling of updates is modelled.
- A failure of a Telegram call after the database write in `finalize_booking` is I/O. For example, `edit_text` raising leaves the state uncleared.
- One booking per user is not an invariant of the code, so it is not claimed. See `RebookingOrphansFirstSlot`.
- Ledger.TakenSlots: states the taken times as a multiset and not their order. SQLite gives no order without `ORDER BY`, although the model computes them in row order.
- Conversation state is keyed by user id alone. The bot's `MemoryStorage` keys it by chat and user, while the database is keyed by user id. The two agree only in the bot's private chat. In another chat, a `settime_` press would book with that chat's name and `day_label`, which may be missing. The model's `BookTime` uses the single per-user session instead.
- User ids are unbounded integers. SQLite's 64-bit INTEGER limit plays no role in the logic.

=== FILE: calendar.dfy ===
/**
 `get_week_dates`: the six Monday-to-Saturday buttons of a bookable week.

 A day is a proleptic Gregorian ordinal (day 1 is Monday, 1 January of year
 1), as Python's `date.toordinal()` counts. The clock reading `datetime.now()`
 becomes the parameter `today`, and the `strftime("%d.%m")` rendering of a
 day becomes the parameter `fmt`.
 */
module Calendar {

  import opened Text
  import opened Callbacks

  /** The short Russian day names, Monday to Saturday; Sunday is never offered. */
  const DayNames: seq<string> := ["Пн", "Вт", "Ср", "Чт", "Пт", "Сб"]

  /** The prefix of the first bookable week; every other prefix but `Next` acts like it. */
  const Curr: string := "curr"

  /** The prefix of the week after it. */
  const Next: string := "next"

  /**
   Python's `date.weekday()`: 0 for Monday up to 6 for Sunday, counting from
   day 1, a Monday; it is the number of days since the last Monday.
   */
  function Weekday(day: int): (wd: int)
    ensures 0 <= wd < 7
    ensures (day - wd - 1) % 7 == 0
  {
    (day + 6) % 7
  }

  /** `today - timedelta(days=today.weekday())`. */
  function MondayOf(today: int): (monday: int)
    ensures Weekday(monday) == 0
    ensures today - 6 <= monday <= today
  {
    today - Weekday(today)
  }

  /**
   The first day listed: the Monday one week after this week's Monday, or two
   weeks after it for the prefix `Next`. It is the Monday that falls within
   the seven (or, for `Next`, the seven after those) days following today.
   */
  function BookingStart(today: int, prefix: string): (start: int)
    ensures Weekday(start) == 0
    ensures prefix != Next ==> today < start <= today + 7
    ensures prefix == Next ==> today + 7 < start <= today + 14
  {
    var bookable := MondayOf(today) + 7;
    if prefix == Next then bookable + 7 else bookable
  }

  /** One button of the days menu, the dict `{"label": caption, "callback": callback}`. */
  datatype DayEntry = DayEntry(caption: string, callback: string)

  /**
   The label `f"🗓 {short_name}, {date_str}"`: the calendar sign and a space,
   then the day name, a comma and a space, then the date text at the end.
   */
  function Label(name: string, dateText: string): (l: string)
    ensures |l| == |name| + |dateText| + 4
    ensures l[..2] == "\U{1F5D3} "
    ensures l[2..2 + |name|] == name
    ensures l[2 + |name|..4 + |name|] == ", "
    ensures l[|l| - |dateText|..] == dateText
  {
    "\U{1F5D3} " + name + ", " + dateText
  }

  /**
   `get_week_dates(prefix)` on the day `today`: six entries, Monday first;
   entry `i` names day `i` of the week and the date `BookingStart + i`, and
   sends `day_{prefix}_{name}`.
   */
  function GetWeekDates(today: int, prefix: string, fmt: int -> string): (days: seq<DayEntry>)
    ensures |days| == |DayNames|
    ensures forall i :: 0 <= i < |days| ==>
              days[i] == DayEntry(Label(DayNames[i], fmt(BookingStart(today, prefix) + i)),
                                  DayCallback(prefix, DayNames[i]))
  {
    var start := BookingStart(today, prefix);
    seq(|DayNames|, i requires 0 <= i < |DayNames| =>
      DayEntry(Label(DayNames[i], fmt(start + i)), DayCallback(prefix, DayNames[i])))
  }

  /**
   The dates listed are the Monday to Saturday of one calendar week, entry `i`
   on weekday `i`; that week is the one after today's for `Curr` (and any other
   prefix but `Next`) and the one after that for `Next`.
   */
  lemma {:induction false} WeekDatesInTargetWeek(today: int, prefix: string, i: int)
    requires 0 <= i < |DayNames|
    ensures Weekday(BookingStart(today, prefix) + i) == i
    ensures prefix != Next ==>
              MondayOf(today) + 7 <= BookingStart(today, prefix) + i < MondayOf(today) + 14
    ensures prefix == Next ==>
              MondayOf(today) + 14 <= BookingStart(today, prefix) + i < MondayOf(today) + 21
  {
    var s := BookingStart(today, prefix);
    var q := (s + 6) / 7;
    assert s + 6 == 7 * q;
    assert s + i + 6 == 7 * q + i;
    assert (7 * q + i) % 7 == i;
  }

  /** The day names contain no separator and are pairwise different. */
  lemma DayNamesWellFormed()
    ensures forall i :: 0 <= i < |DayNames| ==> Free(DayNames[i], Sep)
    ensures forall i, j :: 0 <= i < j < |DayNames| ==> DayNames[i] != DayNames[j]
  {
  }

  /**
   The six callbacks of a week are pairwise different, so the first entry
   whose callback matches is the only one.
   */
  lemma {:induction false} WeekCallbacksDistinct(today: int, prefix: string, fmt: int -> string)
    ensures forall i, j :: 0 <= i < j < |DayNames| ==>
              GetWeekDates(today, prefix, fmt)[i].callback != GetWeekDates(today, prefix, fmt)[j].callback
  {
    var days := GetWeekDates(today, prefix, fmt);
    DayNamesWellFormed();
    forall i, j | 0 <= i < j < |DayNames|
      ensures days[i].callback != days[j].callback
    {
      var a := DayCallback(prefix, DayNames[i]);
      var b := DayCallback(prefix, DayNames[j]);
      assert a[..|a| - |DayNames[i]|] == b[..|b| - |DayNames[j]|];
      assert a[|a| - |DayNames[i]|..] == DayNames[i];
      assert b[|b| - |DayNames[j]|..] == DayNames[j];
    }
  }

}

=== FILE: callbacks.dfy ===
/**
 The callback data the bot's inline buttons carry, how the handlers take it
 apart with `split("_")`, and which time buttons `time_menu_kb` offers.
 */
module Callbacks {

  import opened Options
  import opened Text

  /** The separator every callback string is built and split with. */
  const Sep: char := '_'

  /** The four bookable times of a day, in menu order. */
  const AllTimes: seq<string> := ["11:00", "13:00", "15:00", "17:00"]

  /** Callback data of a locked time button. */
  const AlreadyBooked: string := "already_booked"

  /** The slot key `f"{week_prefix}_{day_key}"`. */
  function Key(prefix: string, day: string): string
  {
    prefix + [Sep] + day
  }

  /** A key of separator-free parts has exactly one separator and splits back into its parts. */
  lemma {:induction false} KeySplit(prefix: string, day: string)
    requires Free(prefix, Sep) && Free(day, Sep)
    ensures multiset(Key(prefix, day))[Sep] == 1
    ensures Split(Key(prefix, day), Sep) == [prefix, day]
  {
    SplitHead(prefix, day, Sep);
    SplitFree(day, Sep);
    SplitCount(Key(prefix, day), Sep);
  }

  /** The week prefix recovered from a slot key, `key.split("_")[0]`. */
  function KeyPrefix(key: string): (p: string)
    ensures Free(p, Sep)
  {
    Split(key, Sep)[0]
  }

  /**
   `f"day_{week_prefix}_{short_name}"`: it starts with the `day_` the router
   matches; `DayRoundTrip` shows that `select_day` parses it back.
   */
  function DayCallback(prefix: string, name: string): (c: string)
    ensures |c| >= 4 && c[..4] == "day" + [Sep]
  {
    "day" + [Sep] + prefix + [Sep] + name
  }

  /**
   `f"settime_{week_day_key}_{t}"`: it starts with the `settime_` the router
   matches; `SetTimeRoundTrip` shows that `finalize_booking` parses it back.
   */
  function SetTimeCallback(key: string, time: string): (c: string)
    ensures |c| >= 8 && c[..8] == "settime" + [Sep]
  {
    "settime" + [Sep] + key + [Sep] + time
  }

  /** `f"week_{week_prefix}"`, the data the week switcher routes on. */
  function WeekCallback(prefix: string): (c: string)
    ensures |c| >= 5 && c[..5] == "week" + [Sep]
  {
    "week" + [Sep] + prefix
  }

  datatype DayArgs = DayArgs(prefix: string, day: string)

  /**
   `parts[1], parts[2]` of `data.split("_")` in `select_day`; None where
   Python raises IndexError, that is, when there are fewer than two separators.
   */
  function ParseDay(data: string): (r: Option<DayArgs>)
    ensures r.None? <==> multiset(data)[Sep] < 2
    ensures r.Some? ==> Free(r.value.prefix, Sep) && Free(r.value.day, Sep)
    ensures r.Some? && multiset(data)[Sep] == 2 ==>
              data == Split(data, Sep)[0] + [Sep] + r.value.prefix + [Sep] + r.value.day
  {
    var parts := Split(data, Sep);
    SplitCount(data, Sep);
    if |parts| < 3 then None
    else
      Join3Split(data);
      Some(DayArgs(parts[1], parts[2]))
  }

  lemma Join3Split(data: string)
    ensures |Split(data, Sep)| == 3 ==>
              var parts := Split(data, Sep);
              data == parts[0] + [Sep] + parts[1] + [Sep] + parts[2]
  {
    if |Split(data, Sep)| == 3 {
      JoinSplit(data, Sep);
      Join3(Split(data, Sep), Sep);
    }
  }

  lemma Join4Split(data: string)
    ensures |Split(data, Sep)| == 4 ==>
              var parts := Split(data, Sep);
              data == parts[0] + [Sep] + Key(parts[1], parts[2]) + [Sep] + parts[3]
  {
    var parts := Split(data, Sep);
    if |parts| == 4 {
      JoinSplit(data, Sep);
      Join4(parts, Sep);
      assert parts[0] + [Sep] + parts[1] + [Sep] + parts[2] + [Sep] + parts[3]
          == parts[0] + [Sep] + Key(parts[1], parts[2]) + [Sep] + parts[3];
    }
  }

  datatype SetTimeArgs = SetTimeArgs(prefix: string, day: string, time: string)

  /**
   `parts[1], parts[2], parts[3]` of `data.split("_")` in `finalize_booking`;
   None where Python raises IndexError (fewer than three separators).
   */
  function ParseSetTime(data: string): (r: Option<SetTimeArgs>)
    ensures r.None? <==> multiset(data)[Sep] < 3
    ensures r.Some? ==> Free(r.value.prefix, Sep) && Free(r.value.day, Sep) && Free(r.value.time, Sep)
    ensures r.Some? && multiset(data)[Sep] == 3 ==>
              data == Split(data, Sep)[0] + [Sep] + Key(r.value.prefix, r.value.day) + [Sep] + r.value.time
  {
    var parts := Split(data, Sep);
    SplitCount(data, Sep);
    if |parts| < 4 then None
    else
      Join4Split(data);
      Some(SetTimeArgs(parts[1], parts[2], parts[3]))
  }

  /** Two separator-free pieces, each followed by a separator, split off in front of the rest. */
  lemma {:induction false} SplitLeadingTwo(a: string, b: string, rest: string)
    requires Free(a, Sep) && Free(b, Sep)
    ensures Split(a + [Sep] + b + [Sep] + rest, Sep) == [a, b] + Split(rest, Sep)
  {
    var t := b + [Sep] + rest;
    SplitHead(b, rest, Sep);
    SplitHead(a, t, Sep);
    assert a + [Sep] + b + [Sep] + rest == a + [Sep] + t;
  }

  /** Three separator-free pieces, each followed by a separator, split off in front of the rest. */
  lemma {:induction false} SplitLeadingThree(a: string, b: string, c: string, rest: string)
    requires Free(a, Sep) && Free(b, Sep) && Free(c, Sep)
    ensures Split(a + [Sep] + b + [Sep] + c + [Sep] + rest, Sep) == [a, b, c] + Split(rest, Sep)
  {
    var t := c + [Sep] + rest;
    SplitLeadingTwo(a, b, t);
    SplitHead(c, rest, Sep);
    assert a + [Sep] + b + [Sep] + c + [Sep] + rest == a + [Sep] + b + [Sep] + t;
  }

  /** Four separator-free pieces, each followed by a separator, split off in front of the rest. */
  lemma {:induction false} SplitLeadingFour(a: string, b: string, c: string, d: string, rest: string)
    requires Free(a, Sep) && Free(b, Sep) && Free(c, Sep) && Free(d, Sep)
    ensures Split(a + [Sep] + b + [Sep] + c + [Sep] + d + [Sep] + rest, Sep) == [a, b, c, d] + Split(rest, Sep)
  {
    var t := c + [Sep] + d + [Sep] + rest;
    SplitLeadingTwo(a, b, t);
    SplitLeadingTwo(c, d, rest);
    assert a + [Sep] + b + [Sep] + c + [Sep] + d + [Sep] + rest == a + [Sep] + b + [Sep] + t;
  }

  /**
   `select_day` takes the second and third pieces whatever follows them:
   data of separator-free `head`, `prefix` and `day`, then a separator and
   anything at all, parses to that prefix and day.
   */
  lemma {:induction false} ParseDayTakesLeadingParts(head: string, prefix: string, day: string, rest: string)
    requires Free(head, Sep) && Free(prefix, Sep) && Free(day, Sep)
    ensures ParseDay(head + [Sep] + prefix + [Sep] + day + [Sep] + rest) == Some(DayArgs(prefix, day))
  {
    SplitLeadingThree(head, prefix, day, rest);
  }

  /**
   `finalize_booking` takes the second to fourth pieces whatever follows
   them: data of separator-free `head`, `prefix`, `day` and `time`, then a
   separator and anything at all, parses to that prefix, day and time.
   */
  lemma {:induction false} ParseSetTimeTakesLeadingParts(head: string, prefix: string, day: string, time: string,
                                                         rest: string)
    requires Free(head, Sep) && Free(prefix, Sep) && Free(day, Sep) && Free(time, Sep)
    ensures ParseSetTime(head + [Sep] + prefix + [Sep] + day + [Sep] + time + [Sep] + rest)
            == Some(SetTimeArgs(prefix, day, time))
  {
    SplitLeadingFour(head, prefix, day, time, rest);
  }

  /** The prefix of a key built from a separator-free prefix is that prefix, whatever the day. */
  lemma KeyPrefixOfKey(prefix: string, day: string)
    requires Free(prefix, Sep)
    ensures KeyPrefix(Key(prefix, day)) == prefix
  {
    SplitHead(prefix, day, Sep);
  }

  /** Parsing a day button built from separator-free parts gives back those parts. */
  lemma DayRoundTrip(prefix: string, name: string)
    requires Free(prefix, Sep) && Free(name, Sep)
    ensures ParseDay(DayCallback(prefix, name)) == Some(DayArgs(prefix, name))
    ensures Split(DayCallback(prefix, name), Sep) == ["day", prefix, name]
  {
    var parts := ["day", prefix, name];
    Join3(parts, Sep);
    SplitJoin(parts, Sep);
  }

  /**
   Parsing a time button built from a separator-free prefix, day and time
   gives back all three.
   */
  lemma SetTimeRoundTrip(prefix: string, day: string, time: string)
    requires Free(prefix, Sep) && Free(day, Sep) && Free(time, Sep)
    ensures ParseSetTime(SetTimeCallback(Key(prefix, day), time)) == Some(SetTimeArgs(prefix, day, time))
  {
    var parts := ["settime", prefix, day, time];
    Join4(parts, Sep);
    var data := SetTimeCallback(Key(prefix, day), time);
    assert Join(parts, Sep) == data;
    SplitJoin(parts, Sep);
    assert Split(data, Sep) == parts;
  }

  datatype TimeButton = Locked(time: string) | Offered(time: string, callback: string)
  {
    /** The callback data the button sends. */
    function Data(): string
    {
      match this
      case Locked(_) => AlreadyBooked
      case Offered(_, c) => c
    }
  }

  /** The taken/free part of `time_menu_kb`: its time buttons and its back button. */
  datatype TimeMenuView = TimeMenuView(buttons: seq<TimeButton>, back: string)

  function TimeButtonFor(key: string, time: string, taken: seq<string>): TimeButton
  {
    if time in taken then Locked(time) else Offered(time, SetTimeCallback(key, time))
  }

  /**
   `time_menu_kb(key)` given `taken = db_get_taken_slots(key)`: one button per
   bookable time in order, locked exactly when the time is taken; a free time
   carries the callback that books it; the back button returns to the key's week.
   */
  function TimeMenu(key: string, taken: seq<string>): (m: TimeMenuView)
    ensures |m.buttons| == |AllTimes|
    ensures forall i :: 0 <= i < |m.buttons| ==>
              && m.buttons[i].time == AllTimes[i]
              && (m.buttons[i].Offered? <==> AllTimes[i] !in taken)
              && (m.buttons[i].Offered? ==> m.buttons[i].callback == SetTimeCallback(key, AllTimes[i]))
              && (m.buttons[i].Locked? ==> m.buttons[i].Data() == AlreadyBooked)
    ensures m.back == WeekCallback(KeyPrefix(key))
  {
    TimeMenuView(seq(|AllTimes|, i requires 0 <= i < |AllTimes| => TimeButtonFor(key, AllTimes[i], taken)),
                 WeekCallback(KeyPrefix(key)))
  }

  /** The bookable times contain no separator. */
  lemma AllTimesFree()
    ensures forall i :: 0 <= i < |AllTimes| ==> Free(AllTimes[i], Sep)
  {
  }

  /**
   A time is offered exactly when it is one of the four bookable times and
   is not taken.
   */
  lemma TimeMenuOffersFreeTimes(key: string, taken: seq<string>, t: string)
    ensures (exists b :: b in TimeMenu(key, taken).buttons && b.Offered? && b.time == t)
            <==> t in AllTimes && t !in taken
  {
    var m := TimeMenu(key, taken);
    if t in AllTimes && t !in taken {
      var i :| 0 <= i < |AllTimes| && AllTimes[i] == t;
      assert m.buttons[i].Offered? && m.buttons[i].time == t;
    }
  }

  /**
   For a key built from a separator-free prefix and day, every offered
   callback parses back to the prefix, the day and the button's time, and
   the back button leads to the prefix's week.
   */
  lemma {:induction false} TimeMenuCallbacksBook(prefix: string, day: string, taken: seq<string>)
    requires Free(prefix, Sep) && Free(day, Sep)
    ensures forall b :: b in TimeMenu(Key(prefix, day), taken).buttons && b.Offered? ==>
              ParseSetTime(b.callback) == Some(SetTimeArgs(prefix, day, b.time))
    ensures TimeMenu(Key(prefix, day), taken).back == WeekCallback(prefix)
  {
    var m := TimeMenu(Key(prefix, day), taken);
    AllTimesFree();
    forall b | b in m.buttons && b.Offered?
      ensures ParseSetTime(b.callback) == Some(SetTimeArgs(prefix, day, b.time))
    {
      var i :| 0 <= i < |m.buttons| && m.buttons[i] == b;
      SetTimeRoundTrip(prefix, day, AllTimes[i]);
    }
    KeyPrefixOfKey(prefix, day);
  }

}

=== FILE: handlers.dfy ===
/**
 The booking flow of the bot's handlers as pure steps on a `World`: the
 database plus each user's conversation state (the aiogram FSM context, keyed
 here by user id alone, as it is in the bot's private chat).

 Each handler takes the world before the update and returns the reply it
 produces and the world after it. Messages, keyboards and admin notices are
 not modelled; a handler that raises (an IndexError from `split("_")`, a
 StopIteration from `next(...)`) is the reply `Crashed` with nothing changed,
 because every raise comes before the handler's first write.
 */
module Handlers {

  import opened Options
  import opened Text
  import opened Ledger
  import opened Callbacks
  import opened Calendar

  /** The FSM data keys the flow reads back: `name`, `week_prefix`, `day_label`. */
  datatype SessionData = SessionData(name: Option<string>, weekPrefix: Option<string>, dayLabel: Option<string>)

  /** A user's FSM context: whether it is in `Registration.waiting_for_name`, and its data. */
  datatype Session = Session(waitingForName: bool, data: SessionData)

  /** The context of a user the bot holds nothing for (or after `state.clear()`). */
  const Blank: Session := Session(false, SessionData(None, None, None))

  datatype World = World(db: Db, sessions: map<UserId, Session>)

  function SessionOf(w: World, user: UserId): Session
  {
    if user in w.sessions then w.sessions[user] else Blank
  }

  /** The world with `user`'s context replaced by `s` and everything else kept. */
  function WithSession(w: World, user: UserId, s: Session): (w': World)
    ensures w'.db == w.db
    ensures SessionOf(w', user) == s
    ensures forall v :: v != user ==> SessionOf(w', v) == SessionOf(w, v)
  {
    w.(sessions := w.sessions[user := s])
  }

  /** The world after `state.clear()` for `user`. */
  function Cleared(w: World, user: UserId): (w': World)
    ensures w'.db == w.db
    ensures SessionOf(w', user) == Blank
    ensures forall v :: v != user ==> SessionOf(w', v) == SessionOf(w, v)
  {
    w.(sessions := w.sessions - {user})
  }

  datatype Reply =
    | ActiveRecordAlert                            // start_reg: the user already has a record
    | AskName                                      // start_reg: prompt for the name
    | DaysShown(days: seq<DayEntry>)               // get_name: the days menu of the current week
    | TimesShown(dayLabel: string, menu: TimeMenuView) // select_day: the chosen day and its times
    | SlotTakenAlert                               // finalize_booking: the time is taken
    | Booked(record: Record)                       // finalize_booking: the record written
    | Cancelled(record: Record)                    // delete_booking: the record removed
    | NothingToCancel                              // delete_booking: no record
    | Unhandled                                    // no handler accepts the update
    | Crashed                                      // the handler raised

  datatype Response = Response(reply: Reply, world: World)

  /**
   `start_reg`: refuses, changing nothing, when the user has a record;
   otherwise enters the name-waiting state, keeping the database and the data.
   */
  function StartReg(w: World, user: UserId): (r: Response)
    ensures r.reply.ActiveRecordAlert? <==> GetUserRecord(w.db, user).Some?
    ensures r.reply.ActiveRecordAlert? || r.reply.AskName?
    ensures r.reply.ActiveRecordAlert? ==> r.world == w
    ensures r.world.db == w.db
    ensures SessionOf(r.world, user).waitingForName <==> r.reply.AskName? || SessionOf(w, user).waitingForName
    ensures SessionOf(r.world, user).data == SessionOf(w, user).data
    ensures forall v :: v != user ==> SessionOf(r.world, v) == SessionOf(w, v)
  {
    if GetUserRecord(w.db, user).Some? then Response(ActiveRecordAlert, w)
    else
      var s := SessionOf(w, user);
      Response(AskName, WithSession(w, user, s.(waitingForName := true)))
  }

  /**
   `get_name`: only a user waiting for a name is handled; the message text
   (None for a message without text) becomes the data's name, the state is
   left, and the days of the current bookable week are shown.
   */
  function GetName(w: World, user: UserId, text: Option<string>, today: int, fmt: int -> string): (r: Response)
    ensures r.world.db == w.db
    ensures r.reply.Unhandled? <==> !SessionOf(w, user).waitingForName
    ensures r.reply.Unhandled? ==> r.world == w
    ensures !r.reply.Unhandled? ==>
              && r.reply == DaysShown(GetWeekDates(today, Curr, fmt))
              && !SessionOf(r.world, user).waitingForName
              && SessionOf(r.world, user).data == SessionOf(w, user).data.(name := text)
    ensures forall v :: v != user ==> SessionOf(r.world, v) == SessionOf(w, v)
  {
    var s := SessionOf(w, user);
    if !s.waitingForName then Response(Unhandled, w)
    else
      Response(DaysShown(GetWeekDates(today, Curr, fmt)),
               WithSession(w, user, Session(false, s.data.(name := text))))
  }

  /** The position of the first entry whose callback is `data`, or `|days|` if none is. */
  function FirstMatch(days: seq<DayEntry>, data: string): (k: nat)
    ensures k <= |days|
    ensures forall j :: 0 <= j < k ==> days[j].callback != data
    ensures k < |days| ==> days[k].callback == data
    decreases |days|
  {
    if |days| == 0 then 0
    else if days[0].callback == data then 0
    else 1 + FirstMatch(days[1..], data)
  }

  /**
   `select_day`: takes the prefix and the day from the callback, looks the
   callback up among that prefix's week entries, records the prefix and the
   entry's label, and shows the times of the key `{prefix}_{day}`.
   */
  function SelectDay(w: World, user: UserId, data: string, today: int, fmt: int -> string): (r: Response)
    ensures r.world.db == w.db
    ensures r.reply.Crashed? || r.reply.TimesShown?
    ensures r.reply.Crashed? ==> r.world == w
    ensures r.reply.TimesShown? ==>
              && SessionOf(r.world, user).waitingForName == SessionOf(w, user).waitingForName
              && SessionOf(r.world, user).data.name == SessionOf(w, user).data.name
              && SessionOf(r.world, user).data.dayLabel == Some(r.reply.dayLabel)
              && SessionOf(r.world, user).data.weekPrefix.Some?
    ensures forall v :: v != user ==> SessionOf(r.world, v) == SessionOf(w, v)
  {
    match ParseDay(data)
    case None => Response(Crashed, w)
    case Some(a) =>
      var days := GetWeekDates(today, a.prefix, fmt);
      var k := FirstMatch(days, data);
      if k == |days| then Response(Crashed, w)
      else
        var caption := days[k].caption;
        var key := Key(a.prefix, a.day);
        var s := SessionOf(w, user);
        var s' := s.(data := s.data.(weekPrefix := Some(a.prefix), dayLabel := Some(caption)));
        Response(TimesShown(caption, TimeMenu(key, TakenSlots(w.db, key))),
                 WithSession(w, user, s'))
  }

  /**
   The check-then-insert of `finalize_booking` for a parsed callback:
   refuses, changing nothing, when the time is among the key's taken times;
   otherwise writes the booking with the name and label from the user's data
   (whatever they are, possibly missing) and clears the user's state.
   */
  function BookTime(w: World, user: UserId, a: SetTimeArgs): (r: Response)
    ensures r.reply.SlotTakenAlert? || r.reply.Booked?
    ensures r.reply.SlotTakenAlert? <==> a.time in TakenSlots(w.db, Key(a.prefix, a.day))
    ensures r.reply.SlotTakenAlert? ==> r.world == w
    ensures r.reply.Booked? ==>
              var s := SessionOf(w, user).data;
              && r.reply.record == Record(s.name, s.dayLabel, Key(a.prefix, a.day), a.time)
              && r.reply.record.Slot() !in w.db.slots
              && r.world.db == AddBooking(w.db, user, s.name, s.dayLabel, Key(a.prefix, a.day), a.time)
              && SessionOf(r.world, user) == Blank
    ensures forall v :: v != user ==> SessionOf(r.world, v) == SessionOf(w, v)
    // the check before the insert keeps every (key, time) pair on one slot row
    ensures NoDuplicateSlots(w.db) ==> NoDuplicateSlots(r.world.db)
  {
    var key := Key(a.prefix, a.day);
    if a.time in TakenSlots(w.db, key) then Response(SlotTakenAlert, w)
    else
      var s := SessionOf(w, user).data;
      var db' := AddBooking(w.db, user, s.name, s.dayLabel, key, a.time);
      AddFreeSlotKeepsSlotsDistinct(w.db, user, s.name, s.dayLabel, key, a.time);
      Response(Booked(Record(s.name, s.dayLabel, key, a.time)), Cleared(w.(db := db'), user))
  }

  /**
   `finalize_booking`: raises on a callback with fewer than three separators
   and otherwise books the time it names.
   */
  function FinalizeBooking(w: World, user: UserId, data: string): (r: Response)
    ensures r.reply.Crashed? <==> multiset(data)[Sep] < 3
    ensures r.reply.Crashed? ==> r.world == w
    ensures !r.reply.Crashed? ==> r == BookTime(w, user, ParseSetTime(data).value)
    ensures NoDuplicateSlots(w.db) ==> NoDuplicateSlots(r.world.db)
  {
    match ParseSetTime(data)
    case None => Response(Crashed, w)
    case Some(a) => BookTime(w, user, a)
  }

  /**
   `delete_booking`: removes the user's record and its slot rows, answering
   with the removed record, or says there is nothing to cancel and changes
   nothing. The conversation state is not touched.
   */
  function CancelBooking(w: World, user: UserId): (r: Response)
    ensures r.reply.Cancelled? || r.reply.NothingToCancel?
    ensures r.reply.Cancelled? <==> GetUserRecord(w.db, user).Some?
    ensures r.reply.Cancelled? ==> GetUserRecord(w.db, user) == Some(r.reply.record)
    ensures r.reply.NothingToCancel? ==> r.world == w
    ensures r.world.sessions == w.sessions
    ensures r.world.db == DeleteBooking(w.db, user).db
    ensures GetUserRecord(r.world.db, user).None?
    ensures NoDuplicateSlots(w.db) ==> NoDuplicateSlots(r.world.db)
  {
    var d := DeleteBooking(w.db, user);
    match d.removed
    case None => Response(NothingToCancel, w)
    case Some(rec) => Response(Cancelled(rec), w.(db := d.db))
  }

  /**
   The updates that reach the booking handlers. The data of a `DayPressed` or
   `TimePressed` is not required to start with the prefix the bot's filter
   routes on, so runs of these events include every run the bot can make,
   and more.
   */
  datatype Event =
    | Register(user: UserId)                                 // callback "register"
    | NameMessage(user: UserId, text: Option<string>, today: int) // a message
    | DayPressed(user: UserId, data: string, today: int)      // callback starting "day_"
    | TimePressed(user: UserId, data: string)                 // callback starting "settime_"
    | CancelPressed(user: UserId)                            // callback "delete_record"

  /** Handles one update; only a time press can add a slot row. */
  function Step(w: World, e: Event, fmt: int -> string): (r: Response)
    ensures NoDuplicateSlots(w.db) ==> NoDuplicateSlots(r.world.db)
    ensures !e.TimePressed? ==> multiset(r.world.db.slots) <= multiset(w.db.slots)
  {
    match e
    case Register(u) => StartReg(w, u)
    case NameMessage(u, text, today) => GetName(w, u, text, today, fmt)
    case DayPressed(u, data, today) => SelectDay(w, u, data, today, fmt)
    case TimePressed(u, data) => FinalizeBooking(w, u, data)
    case CancelPressed(u) => CancelBooking(w, u)
  }

  /**
   The world after handling `events` one after another. Without a time press
   among them no slot row is added: the other handlers only read the slot
   table or delete from it.
   */
  function Run(w: World, events: seq<Event>, fmt: int -> string): (w': World)
    ensures (forall i :: 0 <= i < |events| ==> !events[i].TimePressed?) ==>
              multiset(w'.db.slots) <= multiset(w.db.slots)
    decreases |events|
  {
    if |events| == 0 then w else Run(Step(w, events[0], fmt).world, events[1..], fmt)
  }

  /**
   Handled one at a time, the updates never put the same (key, time) pair on
   two slot rows: inserts only happen through `finalize_booking`'s check and
   deletes only remove rows.
   */
  lemma {:induction false} RunKeepsSlotsDistinct(w: World, events: seq<Event>, fmt: int -> string)
    requires NoDuplicateSlots(w.db)
    ensures NoDuplicateSlots(Run(w, events, fmt).db)
    decreases |events|
  {
    if |events| > 0 {
      RunKeepsSlotsDistinct(Step(w, events[0], fmt).world, events[1..], fmt);
    }
  }

  /** A fresh database has no duplicate slot rows, so no run from it creates one. */
  lemma FreshRunKeepsSlotsDistinct(sessions: map<UserId, Session>, events: seq<Event>, fmt: int -> string)
    ensures NoDuplicateSlots(Run(World(Empty, sessions), events, fmt).db)
  {
    RunKeepsSlotsDistinct(World(Empty, sessions), events, fmt);
  }

  /**
   A day button of any separator-free prefix is accepted: the label is that of
   the button's day in the prefix's week, the prefix and label are recorded,
   and the times shown are those of the key `{prefix}_{day}`.
   */
  lemma {:induction false} SelectDayAccepts(w: World, user: UserId, prefix: string, i: int,
                                            today: int, fmt: int -> string)
    requires Free(prefix, Sep) && 0 <= i < |DayNames|
    ensures var key := Key(prefix, DayNames[i]);
            var caption := Label(DayNames[i], fmt(BookingStart(today, prefix) + i));
            var r := SelectDay(w, user, DayCallback(prefix, DayNames[i]), today, fmt);
            && r.reply == TimesShown(caption, TimeMenu(key, TakenSlots(w.db, key)))
            && SessionOf(r.world, user).data.weekPrefix == Some(prefix)
  {
    var data := DayCallback(prefix, DayNames[i]);
    DayNamesWellFormed();
    DayRoundTrip(prefix, DayNames[i]);
    var days := GetWeekDates(today, prefix, fmt);
    WeekCallbacksDistinct(today, prefix, fmt);
    var k := FirstMatch(days, data);
    assert days[i].callback == data;
    assert k == i;
  }

  /**
   Conversely, the only callbacks accepted are day buttons: the data is
   `day_{prefix}_{name}` for the recorded prefix and one of the six names.
   */
  lemma {:induction false} SelectDayOnlyAcceptsDayButtons(w: World, user: UserId, data: string,
                                                          today: int, fmt: int -> string)
    ensures var r := SelectDay(w, user, data, today, fmt);
            r.reply.TimesShown? ==>
              && Free(SessionOf(r.world, user).data.weekPrefix.value, Sep)
              && exists i :: 0 <= i < |DayNames| &&
                   data == DayCallback(SessionOf(r.world, user).data.weekPrefix.value, DayNames[i])
  {
    var r := SelectDay(w, user, data, today, fmt);
    if r.reply.TimesShown? {
      var a := ParseDay(data).value;
      var days := GetWeekDates(today, a.prefix, fmt);
      var k := FirstMatch(days, data);
      assert SessionOf(r.world, user).data.weekPrefix == Some(a.prefix);
      assert data == DayCallback(a.prefix, DayNames[k]);
    }
  }

}

=== FILE: ledger.dfy ===
/**
 The bot's two SQLite tables as pure data, and the four database helpers.

 `booked_slots` is a list of `(full_key, time_slot)` rows in autoincrement
 order (the id itself is never read, so only the order is kept); new rows are
 only added at the end, and `db_delete_booking` removes rows.
 `user_records` maps a user id to `(name, day_label, full_key, time_slot)`;
 `name` and `day_label` come from the conversation state and may be missing,
 which SQLite stores as NULL.
 */
module Ledger {

  import opened Options

  type UserId = int

  /** One row of `booked_slots`. */
  datatype SlotRow = SlotRow(fullKey: string, timeSlot: string)

  /** One row of `user_records`, without its `user_id` key. */
  datatype Record = Record(name: Option<string>, dayLabel: Option<string>, fullKey: string, timeSlot: string)
  {
    /** The slot row this record refers to. */
    function Slot(): SlotRow
    {
      SlotRow(fullKey, timeSlot)
    }
  }

  datatype Db = Db(slots: seq<SlotRow>, users: map<UserId, Record>)

  /** Both tables as `init_db` leaves a fresh database. */
  const Empty: Db := Db([], map[])

  /** The times of the rows keyed `key`, in row order. */
  function TimesFor(rows: seq<SlotRow>, key: string): (times: seq<string>)
    ensures forall t :: multiset(times)[t] == multiset(rows)[SlotRow(key, t)]
    decreases |rows|
  {
    if |rows| == 0 then []
    else
      assert rows == [rows[0]] + rows[1..];
      var rest := TimesFor(rows[1..], key);
      if rows[0].fullKey == key then [rows[0].timeSlot] + rest else rest
  }

  /**
   `db_get_taken_slots(key)`: every time booked under `key`, once per slot
   row (duplicates included); empty for a key no row carries.
   */
  function TakenSlots(db: Db, key: string): (times: seq<string>)
    ensures forall t :: multiset(times)[t] == multiset(db.slots)[SlotRow(key, t)]
    ensures forall t :: t in times <==> SlotRow(key, t) in db.slots
  {
    TimesFor(db.slots, key)
  }

  /** `db_get_user_record(user)`: the user's row, or None. */
  function GetUserRecord(db: Db, user: UserId): (r: Option<Record>)
    ensures r.Some? <==> user in db.users
    ensures r.Some? ==> r.value == db.users[user]
  {
    if user in db.users then Some(db.users[user]) else None
  }

  /** A key no slot row carries has no taken times. */
  lemma TakenSlotsUnknownKey(db: Db, key: string)
    requires forall i :: 0 <= i < |db.slots| ==> db.slots[i].fullKey != key
    ensures TakenSlots(db, key) == []
  {
    var times := TakenSlots(db, key);
    assert forall t :: multiset(times)[t] == 0;
    assert multiset(times) == multiset{};
  }

  /** A database with a single slot row has exactly that row's time taken under its key. */
  lemma TakenSlotsSingleRow(key: string, time: string, users: map<UserId, Record>)
    ensures TakenSlots(Db([SlotRow(key, time)], users), key) == [time]
  {
    assert [SlotRow(key, time)][1..] == [];
  }

  /**
   `db_add_booking`: appends a slot row unconditionally, then writes the
   user's row with INSERT OR REPLACE.
   */
  function AddBooking(db: Db, user: UserId, name: Option<string>, dayLabel: Option<string>,
                      key: string, time: string): (db': Db)
    // the new record replaces any earlier one for this user
    ensures GetUserRecord(db', user) == Some(Record(name, dayLabel, key, time))
    // nobody else's record changes
    ensures forall v :: v != user ==> GetUserRecord(db', v) == GetUserRecord(db, v)
    // the slot table only grows at its end, by exactly one (key, time) row
    ensures |db'.slots| == |db.slots| + 1 && db'.slots[..|db.slots|] == db.slots
    ensures forall row :: multiset(db'.slots)[row]
                          == multiset(db.slots)[row] + (if row == SlotRow(key, time) then 1 else 0)
    // so the time is taken afterwards, and every other key's times are as before
    ensures time in TakenSlots(db', key)
    ensures forall k :: k != key ==> TakenSlots(db', k) == TakenSlots(db, k)
  {
    var db' := Db(db.slots + [SlotRow(key, time)], db.users[user := Record(name, dayLabel, key, time)]);
    assert db'.slots[..|db.slots|] == db.slots;
    TimesForAppendOther(db.slots, SlotRow(key, time));
    db'
  }

  /** Appending a row under one key leaves the times of every other key alone. */
  lemma {:induction false} TimesForAppendOther(rows: seq<SlotRow>, row: SlotRow)
    ensures forall k :: k != row.fullKey ==> TimesFor(rows + [row], k) == TimesFor(rows, k)
    decreases |rows|
  {
    forall k | k != row.fullKey
      ensures TimesFor(rows + [row], k) == TimesFor(rows, k)
    {
      TimesForAppendOtherKey(rows, row, k);
    }
  }

  lemma {:induction false} TimesForAppendOtherKey(rows: seq<SlotRow>, row: SlotRow, k: string)
    requires k != row.fullKey
    ensures TimesFor(rows + [row], k) == TimesFor(rows, k)
    decreases |rows|
  {
    if |rows| == 0 {
      assert [row][1..] == [];
    } else {
      assert (rows + [row])[1..] == rows[1..] + [row];
      TimesForAppendOtherKey(rows[1..], row, k);
    }
  }

  /** The rows of `rows` different from `row`, in order (the SQL DELETE's survivors). */
  function RemoveRow(rows: seq<SlotRow>, row: SlotRow): (kept: seq<SlotRow>)
    ensures forall x :: multiset(kept)[x] == if x == row then 0 else multiset(rows)[x]
    decreases |rows|
  {
    if |rows| == 0 then []
    else
      assert rows == [rows[0]] + rows[1..];
      var rest := RemoveRow(rows[1..], row);
      if rows[0] == row then rest else [rows[0]] + rest
  }

  datatype Deleted = Deleted(removed: Option<Record>, db: Db)

  /**
   `db_delete_booking(user)`: with no record, returns None and touches
   nothing; otherwise deletes every slot row equal to the record's
   `(full_key, time_slot)` and the user's row, and returns the record.
   */
  function DeleteBooking(db: Db, user: UserId): (d: Deleted)
    ensures user !in db.users ==> d.removed == None && d.db == db
    ensures user in db.users ==> d.removed == Some(db.users[user])
    ensures d.removed.Some? ==>
              && d.db.users == db.users - {user}
              && (forall x :: multiset(d.db.slots)[x]
                              == if x == d.removed.value.Slot() then 0 else multiset(db.slots)[x])
              && d.removed.value.timeSlot !in TakenSlots(d.db, d.removed.value.fullKey)
    ensures GetUserRecord(d.db, user) == None
  {
    match GetUserRecord(db, user)
    case None => Deleted(None, db)
    case Some(r) => Deleted(Some(r), Db(RemoveRow(db.slots, r.Slot()), db.users - {user}))
  }

  /** No `(full_key, time_slot)` pair appears in more than one slot row. */
  ghost predicate NoDuplicateSlots(db: Db)
  {
    forall row :: multiset(db.slots)[row] <= 1
  }

  /** Adding a booking for a time not yet taken under its key keeps slot rows distinct. */
  lemma AddFreeSlotKeepsSlotsDistinct(db: Db, user: UserId, name: Option<string>, dayLabel: Option<string>,
                                      key: string, time: string)
    requires time !in TakenSlots(db, key)
    ensures NoDuplicateSlots(db) ==> NoDuplicateSlots(AddBooking(db, user, name, dayLabel, key, time))
  {
  }

  /** The same property stated over row positions. */
  lemma {:induction false} NoDuplicateSlotsByIndex(db: Db)
    requires NoDuplicateSlots(db)
    ensures forall i, j :: 0 <= i < j < |db.slots| ==> db.slots[i] != db.slots[j]
  {
    forall i, j | 0 <= i < j < |db.slots|
      ensures db.slots[i] != db.slots[j]
    {
      var s := db.slots;
      assert s == s[..i] + [s[i]] + s[i+1..j] + [s[j]] + s[j+1..];
      assert multiset(s)[s[j]] >= multiset([s[i]] + [s[j]])[s[j]];
    }
  }

  /** Conversely, slot rows at pairwise different positions that all differ have no duplicate pair. */
  lemma {:induction false} NoDuplicateSlotsFromIndex(db: Db)
    requires forall i, j :: 0 <= i < j < |db.slots| ==> db.slots[i] != db.slots[j]
    ensures NoDuplicateSlots(db)
    decreases |db.slots|
  {
    var s := db.slots;
    if |s| > 0 {
      NoDuplicateSlotsFromIndex(Db(s[1..], db.users));
      assert s == [s[0]] + s[1..];
      assert s[0] !in s[1..] by {
        forall k | 0 <= k < |s[1..]|
          ensures s[1..][k] != s[0]
        {
          assert s[1..][k] == s[k + 1];
        }
      }
      forall row
        ensures multiset(s)[row] <= 1
      {
        assert multiset(s)[row] == multiset([s[0]])[row] + multiset(s[1..])[row];
      }
    }
  }

}

=== FILE: options.dfy ===
/** The optional value the bot's lookups return: a row or Python's None. */
module Options {

  datatype Option<+T> = None | Some(value: T)

}

=== FILE: properties.dfy ===
/**
 Properties of whole booking conversations: cancelling, re-booking, two
 users racing for one time (one after the other), and what the per-user
 upsert does to slot rows.
 */
module BookingProperties {

  import opened Options
  import opened Text
  import opened Ledger
  import opened Callbacks
  import opened Calendar
  import opened Handlers

  /**
   Cancelling twice: the first cancel removes the record if there is one,
   the second always finds nothing and changes nothing.
   */
  lemma CancelTwice(w: World, user: UserId)
    ensures var r1 := CancelBooking(w, user);
            var r2 := CancelBooking(r1.world, user);
            && (r1.reply.Cancelled? <==> user in w.db.users)
            && r2.reply == NothingToCancel
            && r2.world == r1.world
  {
  }

  /**
   Once a user's booking is cancelled, anybody, that user included, can book
   its time again through the time button that names it.
   */
  lemma {:induction false} CancelThenRebook(w: World, user: UserId, other: UserId,
                                            prefix: string, day: string, time: string)
    requires Free(prefix, Sep) && Free(day, Sep) && Free(time, Sep)
    requires GetUserRecord(w.db, user).Some?
    requires GetUserRecord(w.db, user).value.Slot() == SlotRow(Key(prefix, day), time)
    ensures var w1 := CancelBooking(w, user).world;
            var r := FinalizeBooking(w1, other, SetTimeCallback(Key(prefix, day), time));
            && r.reply.Booked?
            && r.reply.record.Slot() == SlotRow(Key(prefix, day), time)
  {
    SetTimeRoundTrip(prefix, day, time);
  }

  /**
   When a time button books a slot, the same button pressed next, by anyone,
   is refused and changes nothing; and the start of a new registration by the
   user who booked is refused.
   */
  lemma BookedSlotRefusesNext(w: World, user: UserId, other: UserId, data: string)
    requires FinalizeBooking(w, user, data).reply.Booked?
    ensures var w1 := FinalizeBooking(w, user, data).world;
            && FinalizeBooking(w1, other, data) == Response(SlotTakenAlert, w1)
            && StartReg(w1, user) == Response(ActiveRecordAlert, w1)
  {
  }

  /**
   Booking a free time through its button succeeds, and afterwards the time
   menu of its key shows that time locked.
   */
  lemma {:induction false} BookedTimeLocked(w: World, user: UserId, prefix: string, day: string, i: int)
    requires Free(prefix, Sep) && Free(day, Sep) && 0 <= i < |AllTimes|
    requires AllTimes[i] !in TakenSlots(w.db, Key(prefix, day))
    ensures var r := FinalizeBooking(w, user, SetTimeCallback(Key(prefix, day), AllTimes[i]));
            && r.reply.Booked?
            && TimeMenu(Key(prefix, day), TakenSlots(r.world.db, Key(prefix, day))).buttons[i].Locked?
  {
    AllTimesFree();
    SetTimeRoundTrip(prefix, day, AllTimes[i]);
  }

  /**
   On a fresh database, pressing the 11:00 button of Monday in the bookable
   week books it, and 11:00 becomes the only time taken that day.
   */
  lemma FreshFirstBooking(u1: UserId)
    ensures var key := Key(Curr, DayNames[0]);
            var r1 := FinalizeBooking(World(Empty, map[]), u1, SetTimeCallback(key, AllTimes[0]));
            && r1.reply.Booked?
            && TakenSlots(r1.world.db, key) == [AllTimes[0]]
  {
    var key := Key(Curr, DayNames[0]);
    var w0 := World(Empty, map[]);
    var r1 := FinalizeBooking(w0, u1, SetTimeCallback(key, AllTimes[0]));
    DayNamesWellFormed();
    AllTimesFree();
    assert Free(Curr, Sep);
    SetTimeRoundTrip(Curr, DayNames[0], AllTimes[0]);
    TakenSlotsUnknownKey(w0.db, key);
    assert r1.world.db.slots == [SlotRow(key, AllTimes[0])];
    TakenSlotsSingleRow(key, AllTimes[0], r1.world.db.users);
  }

  /**
   The booking scenario on a fresh database: the first user books 11:00 on
   Monday of the bookable week, a second user's press of the same button is
   refused; after the first user cancels, the second user's press succeeds.
   */
  lemma {:induction false} FirstComeFirstServed(u1: UserId, u2: UserId)
    ensures var key := Key(Curr, DayNames[0]);
            var data := SetTimeCallback(key, AllTimes[0]);
            var r1 := FinalizeBooking(World(Empty, map[]), u1, data);
            && r1.reply.Booked?
            && FinalizeBooking(r1.world, u2, data).reply == SlotTakenAlert
            && FinalizeBooking(CancelBooking(r1.world, u1).world, u2, data).reply.Booked?
  {
    var key := Key(Curr, DayNames[0]);
    var data := SetTimeCallback(key, AllTimes[0]);
    var w0 := World(Empty, map[]);
    FreshFirstBooking(u1);
    BookedSlotRefusesNext(w0, u1, u2, data);
    var r1 := FinalizeBooking(w0, u1, data);
    DayNamesWellFormed();
    AllTimesFree();
    assert Free(Curr, Sep);
    SetTimeRoundTrip(Curr, DayNames[0], AllTimes[0]);
    CancelThenRebook(r1.world, u1, u2, Curr, DayNames[0], AllTimes[0]);
  }

  /** With only 11:00 taken, the time menu locks 11:00 and offers the other three times. */
  lemma OnlyFirstTimeLocked(key: string)
    ensures var menu := TimeMenu(key, [AllTimes[0]]);
            && menu.buttons[0] == Locked(AllTimes[0])
            && menu.buttons[1] == Offered(AllTimes[1], SetTimeCallback(key, AllTimes[1]))
            && menu.buttons[2] == Offered(AllTimes[2], SetTimeCallback(key, AllTimes[2]))
            && menu.buttons[3] == Offered(AllTimes[3], SetTimeCallback(key, AllTimes[3]))
  {
  }

  /**
   The upsert keeps only the latest record per user, so a user who books
   twice (the time button of a stale menu is still live after a booking)
   leaves the first slot row behind: cancelling then frees only the second
   slot, and the first stays taken with no record pointing at it.
   */
  lemma {:induction false} RebookingOrphansFirstSlot(w: World, user: UserId, a1: SetTimeArgs, a2: SetTimeArgs)
    requires a1.time !in TakenSlots(w.db, Key(a1.prefix, a1.day))
    requires a2.time !in TakenSlots(w.db, Key(a2.prefix, a2.day))
    requires SlotRow(Key(a1.prefix, a1.day), a1.time) != SlotRow(Key(a2.prefix, a2.day), a2.time)
    ensures var r1 := BookTime(w, user, a1);
            var r2 := BookTime(r1.world, user, a2);
            var r3 := CancelBooking(r2.world, user);
            && r1.reply.Booked?
            && r2.reply.Booked?
            && r3.reply == Cancelled(r2.reply.record)
            && GetUserRecord(r3.world.db, user).None?
            && a1.time in TakenSlots(r3.world.db, Key(a1.prefix, a1.day))
  {
    var first := SlotRow(Key(a1.prefix, a1.day), a1.time);
    var second := SlotRow(Key(a2.prefix, a2.day), a2.time);
    var r1 := BookTime(w, user, a1);
    assert r1.world.db.slots == w.db.slots + [first];
    assert second !in r1.world.db.slots;
    var r2 := BookTime(r1.world, user, a2);
    assert r2.world.db.slots == r1.world.db.slots + [second];
    assert multiset(r2.world.db.slots)[first] >= 1;
  }

  /** On a Wednesday the bookable week starts five days later, the next one twelve days later. */
  lemma {:induction false} WednesdayStarts(today: int)
    requires Weekday(today) == 2
    ensures BookingStart(today, Curr) == today + 5
    ensures BookingStart(today, Next) == today + 12
  {
    WeekDatesInTargetWeek(today, Curr, 0);
  }

  /**
   The week resolver called on a Wednesday: the bookable week starts on the
   Monday five days later, and the six dates run from that Monday to the
   Saturday ten days later, each on its own weekday; the next week's dates
   are seven days after those.
   */
  lemma {:induction false} WednesdayWeek(today: int, fmt: int -> string)
    requires Weekday(today) == 2
    ensures BookingStart(today, Curr) == today + 5
    ensures BookingStart(today, Next) == today + 12
    ensures forall i :: 0 <= i < |DayNames| ==>
              && GetWeekDates(today, Curr, fmt)[i].caption == Label(DayNames[i], fmt(today + 5 + i))
              && GetWeekDates(today, Next, fmt)[i].caption == Label(DayNames[i], fmt(today + 12 + i))
              && Weekday(today + 5 + i) == i
  {
    WednesdayStarts(today);
    WeekDatesInTargetWeek(today, Curr, 0);
    WeekDatesInTargetWeek(today, Curr, 1);
    WeekDatesInTargetWeek(today, Curr, 2);
    WeekDatesInTargetWeek(today, Curr, 3);
    WeekDatesInTargetWeek(today, Curr, 4);
    WeekDatesInTargetWeek(today, Curr, 5);
  }

}

=== FILE: text.dfy ===
/**
 The string operations the bot's callback data relies on: Python's
 `str.split(sep)` for a one-character separator, and its inverse, joining
 pieces with that separator (what the f-strings `f"{a}_{b}"` build).
 */
module Text {

  /** `s` does not contain the separator. */
  predicate Free(s: string, sep: char)
  {
    forall i :: 0 <= i < |s| ==> s[i] != sep
  }

  /** `sep.join(parts)`, for a non-empty list of parts. */
  function Join(parts: seq<string>, sep: char): string
    requires |parts| >= 1
    decreases |parts|
  {
    if |parts| == 1 then parts[0] else parts[0] + [sep] + Join(parts[1..], sep)
  }

  /** Joining `[a] + rest` puts `a` and the separator in front of joining `rest`. */
  lemma JoinCons(a: string, rest: seq<string>, sep: char)
    requires |rest| >= 1
    ensures Join([a] + rest, sep) == a + [sep] + Join(rest, sep)
  {
    assert ([a] + rest)[1..] == rest;
  }

  /** Joining exactly three pieces. */
  lemma Join3(parts: seq<string>, sep: char)
    requires |parts| == 3
    ensures Join(parts, sep) == parts[0] + [sep] + parts[1] + [sep] + parts[2]
  {
    assert Join(parts[2..], sep) == parts[2];
    assert parts[1..][1..] == parts[2..];
  }

  /** Joining exactly four pieces. */
  lemma Join4(parts: seq<string>, sep: char)
    requires |parts| == 4
    ensures Join(parts, sep) == parts[0] + [sep] + parts[1] + [sep] + parts[2] + [sep] + parts[3]
  {
    Join3(parts[1..], sep);
  }

  /** Prefixing one character to the first part prefixes it to the joined string. */
  lemma JoinPrependChar(c: char, parts: seq<string>, sep: char)
    requires |parts| >= 1
    ensures Join([[c] + parts[0]] + parts[1..], sep) == [c] + Join(parts, sep)
  {
    if |parts| > 1 {
      JoinCons([c] + parts[0], parts[1..], sep);
    }
  }

  /**
   Python's `s.split(sep)`: the maximal separator-free pieces of `s`, in order;
   there is always at least one.
   */
  function Split(s: string, sep: char): (parts: seq<string>)
    ensures |parts| >= 1
    ensures forall i :: 0 <= i < |parts| ==> Free(parts[i], sep)
    decreases |s|
  {
    if |s| == 0 then [""]
    else
      var rest := Split(s[1..], sep);
      if s[0] == sep then [""] + rest
      else [[s[0]] + rest[0]] + rest[1..]
  }

  /** There is one piece more than there are separators. */
  lemma {:induction false} SplitCount(s: string, sep: char)
    ensures |Split(s, sep)| == multiset(s)[sep] + 1
    decreases |s|
  {
    if |s| > 0 {
      SplitCount(s[1..], sep);
      assert s == [s[0]] + s[1..];
      assert multiset(s)[sep] == multiset(s[1..])[sep] + (if s[0] == sep then 1 else 0);
    }
  }

  /** Joining the pieces with the separator gives back the string. */
  lemma {:induction false} JoinSplit(s: string, sep: char)
    ensures Join(Split(s, sep), sep) == s
    decreases |s|
  {
    if |s| > 0 {
      var rest := Split(s[1..], sep);
      JoinSplit(s[1..], sep);
      if s[0] == sep {
        JoinCons("", rest, sep);
      } else {
        JoinPrependChar(s[0], rest, sep);
      }
      assert [s[0]] + s[1..] == s;
    }
  }

  /** A separator-free string splits into itself alone. */
  lemma {:induction false} SplitFree(a: string, sep: char)
    requires Free(a, sep)
    ensures Split(a, sep) == [a]
    decreases |a|
  {
    if |a| > 0 {
      SplitFree(a[1..], sep);
      assert Split(a, sep) == [[a[0]] + a[1..]] + Split(a[1..], sep)[1..];
      assert [a[0]] + a[1..] == a;
    }
  }

  /** A separator-free head followed by the separator splits off as the first piece. */
  lemma {:induction false} SplitHead(a: string, s: string, sep: char)
    requires Free(a, sep)
    ensures Split(a + [sep] + s, sep) == [a] + Split(s, sep)
    decreases |a|
  {
    var x := a + [sep] + s;
    if |a| == 0 {
      assert x[1..] == s;
      assert x[0] == sep;
    } else {
      assert x[1..] == a[1..] + [sep] + s;
      SplitHead(a[1..], s, sep);
      var rest := Split(x[1..], sep);
      assert rest == [a[1..]] + Split(s, sep);
      assert x[0] == a[0] && a[0] != sep;
      assert Split(x, sep) == [[a[0]] + rest[0]] + rest[1..];
      assert rest[1..] == Split(s, sep);
      assert [a[0]] + a[1..] == a;
    }
  }

  /** Splitting undoes joining, when no piece contains the separator. */
  lemma {:induction false} SplitJoin(parts: seq<string>, sep: char)
    requires |parts| >= 1
    requires forall i :: 0 <= i < |parts| ==> Free(parts[i], sep)
    ensures Split(Join(parts, sep), sep) == parts
    decreases |parts|
  {
    if |parts| == 1 {
      SplitFree(parts[0], sep);
    } else {
      SplitJoin(parts[1..], sep);
      SplitHead(parts[0], Join(parts[1..], sep), sep);
      assert [parts[0]] + parts[1..] == parts;
    }
  }

}
